=== FILE: README.md ===
# Banned-domain checker, modelled in Dafny

`DomainCheker.cpp` answers one question: is a domain name on a block list,
or below an entry of it? Two small classes do the work.

- `Domain` keeps a name as the character-wise reversal of its text, so
  "yandex.ru" is held as "ur.xednay". In that form a parent domain is a
  prefix of its subdomains.
  - `IsSubdomain` appends a `.` to each stored text that does not already
    end in `.`.
  - It then asks whether the parent's padded text starts the other's.
- `DomainChecker` copies the block list, sorts it by stored text, and drops
  with `std::unique` every entry that equals or lies below the last retained
  entry.
  - `IsForbidden` runs `upper_bound` for the query and steps back one
    position to the floor entry, the last entry not after the query. It then
    tests that entry.
  - For a list of exactly one entry, that entry is checked once more, wherever the search left
    the position.

The model has five modules:

- `Text`: reversal, the prefix test, and the lexicographic order of
  `std::string`.
- `Domains`: the `Domain` value, the padding, the subdomain test and its
  meaning for names as written.
- `DomainChecker`:
  - the constructor: `Sort`, then `Dedup`, a left fold of `Step`, defined by
    recursion on the last element. `Step` is one step of `std::unique` as
    libstdc++ performs it, comparing each element with the last retained one.
  - the lookup: `UpperBound`, a binary search with loop invariants, and
    `IsForbidden`.
  - `Verdict`, a description of the lookup's answer that does not mention the
    search.
- `CheckerProperties`: properties that relate several calls.
  - The constructor's result depends only on the set of entries.
  - Building again from the result returns the same list.
  - A "forbidden" answer is always justified by some entry.
  - For entries drawn from the domain-name alphabet, the retained entries are
    pairwise non-nesting and the lookup is complete.
- `Scenarios`: concrete names and block lists, including counterexamples to
  completeness outside that alphabet.

## Behaviour worth knowing

- **A leading dot is ignored; a trailing dot is not.** The padding at lines
  42-45 looks at the last character of the REVERSED text, which is the first
  character of the name as written.
  - ".com" and "com" cover each other (`Domains.LeadingSeparatorIgnored`).
  - "example.com." and "example.com" are unrelated
    (`Domains.TrailingSeparatorKept`).
- **Characters, not labels, are reversed.** "yandex.ru" is held as
  "ur.xednay", not "ru.yandex".
  - The subdomain test still matches whole labels
    (`Domains.SubdomainMeaning`).
  - The sort order does not always place a parent directly before its
    subdomains. A character that sorts below `.`, such as `-`, can put an
    unrelated entry between them (`Scenarios.HyphenHidesParent`).
- **`std::unique` with a non-symmetric test.** The constructor's predicate is
  "equal, or a subdomain of". The model fixes libstdc++'s behaviour: each
  element is compared with the last element kept so far, and dropped when
  that one covers it.

## Model

| member | source | states |
|---|---|---|
| Text.Reverse | DomainCheker.cpp:30 | `std::reverse`: the result has the input's length and its character `i` is the input's character `n-1-i`; undone by `Text.ReverseInvolution` |
| Domains.FromName | DomainCheker.cpp:28-31 | the stored text has the name's length, and its character `i` is the name's character `n-1-i` |
| Text.ReverseInvolution | DomainCheker.cpp:28-31 | reversing the stored text once more gives back the name exactly |
| Domains.GetDomain | DomainCheker.cpp:60-62 | definition: the stored text; see `Domains.GetDomainRoundTrip` |
| Domains.GetDomainRoundTrip | DomainCheker.cpp:60-62 | `GetDomain` returns the reversal of the name, and reversing it gives the name back |
| Domains.Equal | DomainCheker.cpp:54-57 | definition: equality of the stored texts; see `Domains.EqualNames` |
| Domains.EqualNames | DomainCheker.cpp:54-57 | two domains compare equal exactly when they were built from the same text |
| Domains.Padded | DomainCheker.cpp:42-45 | definition: a `.` is appended unless the stored text already ends in one; its effect on names as written is given by `Domains.LeadingSeparatorIgnored` and `Domains.TrailingSeparatorKept` |
| Domains.Substr | DomainCheker.cpp:47 | `substr(pos, count)` yields `min(count, size - pos)` characters, the `i`-th being the text's character `pos + i` |
| Domains.IsSubdomain | DomainCheker.cpp:39-52 | definition; its meaning is given by `Domains.SubdomainAsWritten`, `Domains.SubdomainPrefix` and `Domains.SubdomainMeaning` |
| Domains.SubdomainAsWritten | DomainCheker.cpp:39-52 | the subdomain test holds exactly when the padded parent text equals as many leading characters of the padded subdomain text as it has itself (the `substr` comparison) |
| Domains.SubdomainPrefix | DomainCheker.cpp:47 | equivalently, the padded parent text is a prefix of the padded subdomain text |
| Domains.SubdomainReflexive | DomainCheker.cpp:39-52 | every non-empty domain is a subdomain of itself |
| Domains.SubdomainTransitive | DomainCheker.cpp:39-52 | a subdomain of a subdomain of `a` is a subdomain of `a` |
| Domains.SubdomainMeaning | DomainCheker.cpp:39-52 | for names as written, after dropping at most one leading `.` from each: the names are equal, or the child ends in `.` followed by the parent; no partial label matches |
| Domains.LeadingSeparatorIgnored | DomainCheker.cpp:42-45 | ".com" and "com" (any name with and without one leading dot) are each other's subdomain |
| Domains.TrailingSeparatorKept | DomainCheker.cpp:42-45 | "example.com." and "example.com" (a name with and without a trailing dot) are subdomains of neither |
| Domains.Covers | DomainCheker.cpp:100-102 | definition of the `unique` test; it coincides with `IsSubdomain` (`Domains.CoversIsSubdomain`) and is transitive (`Domains.CoversTransitive`) |
| Domains.CoversIsSubdomain | DomainCheker.cpp:100-102 | the equality half of the constructor's `unique` test adds nothing to the subdomain half |
| Domains.CoversTransitive | DomainCheker.cpp:100-102 | the `unique` test is transitive |
| Scenarios.NotAPartialLabel | DomainCheker.cpp:39-52 | "notexample.com" is not a subdomain of "example.com" |
| Scenarios.BelowTopLevel | DomainCheker.cpp:39-52 | "notmaps.com" is a subdomain of "com" |
| Scenarios.OnlyDownwards | DomainCheker.cpp:39-52 | "a.example.com" is below "example.com", and not the other way round |
| Text.Less | DomainCheker.cpp:96-98 | definition of `std::string`'s `operator<`: the first differing character decides, a proper prefix comes first; a strict total order by `Text.LessIrreflexive`, `Text.LessTransitive` and `Text.LessTotal` |
| Text.LessIrreflexive | DomainCheker.cpp:96-98 | no string comes before itself |
| Text.LessTransitive | DomainCheker.cpp:96-98 | the string order is transitive |
| Text.LessTotal | DomainCheker.cpp:96-98 | any two strings are equal or ordered one way round |
| DomainChecker.Precedes | DomainCheker.cpp:96-98 | definition: the comparator `a.GetDomain() < b.GetDomain()`, used both by the sort and by the search (lines 116-118) |
| DomainChecker.Sort | DomainCheker.cpp:96-98 | the result is ascending by stored text and a permutation of the input (same multiset, same length) |
| DomainChecker.SortSameElements | DomainCheker.cpp:96-98 | sorting keeps exactly the elements of the input, and keeps them non-empty |
| CheckerProperties.StepRepeat | DomainCheker.cpp:100-102 | a repeated element is dropped the second time, whatever was retained before |
| DomainChecker.Dedup | DomainCheker.cpp:100-103 | the retained list is no longer than the input, starts with the input's first element, and no retained element is covered by its retained predecessor |
| CheckerProperties.DedupIsFold | DomainCheker.cpp:100-103 | `Dedup` equals the loop that starts from nothing retained and feeds the elements to `Step` first to last |
| DomainChecker.DedupCovers | DomainCheker.cpp:100-103 | every input element equals, or is a subdomain of, some retained element |
| DomainChecker.DedupSubMultiset | DomainCheker.cpp:100-103 | the retained elements are drawn from the input (sub-multiset) |
| DomainChecker.DedupStrictlyAscending | DomainCheker.cpp:100-103 | on an ascending input, the retained list is strictly ascending |
| CheckerProperties.DedupKeeps | DomainCheker.cpp:100-103 | a list in which no element is covered by its predecessor passes `unique` unchanged |
| CheckerProperties.DedupBySet | DomainCheker.cpp:96-103 | two ascending lists with the same elements, repetitions aside, give the same retained list |
| DomainChecker.Build | DomainCheker.cpp:89-107 | the constructed checker is strictly ascending with non-empty entries, no longer than the input, and no retained entry is covered by its retained predecessor |
| DomainChecker.BuildSubMultiset | DomainCheker.cpp:91-103 | the retained entries are drawn from the input |
| DomainChecker.BuildCovers | DomainCheker.cpp:96-103 | every input entry equals, or is a subdomain of, some retained entry |
| CheckerProperties.BuildDependsOnlyOnSet | DomainCheker.cpp:91-103 | inputs with the same elements, in any order and with any repetitions, build the same checker |
| CheckerProperties.BuildIdempotent | DomainCheker.cpp:89-107 | building again from the retained list returns the same checker |
| Scenarios.BuildExample | DomainCheker.cpp:96-103 | "ya.ru", "maps.me", "m.ya.ru", "com" keep "maps.me", "com", "ya.ru", in that order |
| Scenarios.NestedPairKept | DomainCheker.cpp:100-103 | "com", "a-com", "x.com" are all kept although "com" covers "x.com": `unique` compares only with the last entry kept |
| CheckerProperties.NoCoverBeyond | DomainCheker.cpp:96-103 | with well-formed entries, an entry that does not cover the next retained entry covers nothing sorted after it |
| CheckerProperties.BuildAntichain | DomainCheker.cpp:96-103 | with well-formed entries, the retained list is pairwise non-nesting |
| DomainChecker.UpperBound | DomainCheker.cpp:115-119 | the returned position splits a strictly ascending list: entries before it are not after the query, entries from it on are |
| DomainChecker.FloorAt | DomainCheker.cpp:115-121 | stepping back from that position reaches the floor entry, and no other position is the floor |
| DomainChecker.IsForbidden | DomainCheker.cpp:114-138 | the answer is `Verdict`: the floor entry covers the query, or the list has one entry and it covers the query; a true answer names a covering entry; the empty list forbids nothing; a retained entry forbids itself |
| DomainChecker.VerdictSound | DomainCheker.cpp:120-136 | whenever the lookup answers "forbidden", some retained entry equals the query or has it as a subdomain |
| CheckerProperties.BuildVerdictSound | DomainCheker.cpp:114-138 | whenever the built checker forbids a query, some input entry equals the query or has it as a subdomain |
| CheckerProperties.CoveringEntryIsFloor | DomainCheker.cpp:115-127 | in a strictly ascending, non-nesting list of well-formed entries, an entry that covers the query is the query's floor |
| CheckerProperties.Completeness | DomainCheker.cpp:114-138 | with well-formed entries, the built checker forbids a query exactly when some input entry equals it or has it as a subdomain |
| CheckerProperties.OneEntryBranchRedundant | DomainCheker.cpp:129-136 | under the same conditions, the one-entry branch never changes the answer |
| Scenarios.HyphenHidesParent | DomainCheker.cpp:115-127 | entries "com" and "a-com" are both kept, "com" covers "y.com", yet the lookup answers "not forbidden": without the alphabet restriction completeness fails |
| CheckerProperties.SingleEntry | DomainCheker.cpp:120-136 | with one entry, the lookup forbids exactly the queries that entry covers, including queries sorted before it |
| Scenarios.OneEntryBranch | DomainCheker.cpp:129-136 | the list ".com" forbids "com" although "com" has no floor; only the one-entry branch finds it |
| Scenarios.OneEntryBranchSkipped | DomainCheker.cpp:120-136 | the list ".com", "ru" does not forbid "com", although ".com" covers it |

"Well-formed" (`Domains.WellFormed`) means three things:

- the name is non-empty;
- it does not start with `.`;
- it uses only `.` and characters that sort above it, such as letters and
  digits.

`Domains.WellFormedName` states this for the name as written.

## Left out

- `ReadDomains` and `ReadNumberOnLine` (lines 155-176) read standard input.
  The model takes block lists and queries as values.
- `GenerateWord` (lines 179-194) draws random words and is never called.
- `main` (lines 198-207) only wires input to output.
- An empty text comes from an empty input line: `ReadDomains` (lines 159-161)
  builds `Domain("")` for it. The default constructor `Domain()` (line 22)
  would give the same, but nothing calls it. `IsSubdomain` on such a domain
  reads the last character of an empty string, which is undefined behaviour,
  so the model requires non-empty texts wherever `IsSubdomain` is applied.
  `GetDomain` and `operator==` take any text.
- The copy loop with `reserve` and `push_back` (lines 91-95) is the identity
  on the list of entries, and the model starts from that list.
- `std::sort`'s algorithm is modelled as an insertion sort.
  - Only its result matters: any ascending permutation is the same list,
    because entries with equal keys are equal.
  - `DomainChecker.Sort` states that its result is ascending and has the same
    elements.
- Characters are compared by code point. For the byte values a `std::string`
  holds, this is the order `std::char_traits<char>::lt` uses, which compares
  as `unsigned char`. Multi-byte encodings are not modelled.
- DomainChecker.Build: requires every entry to be non-empty, so a block list
  with an empty line is not modelled. The source only
  reaches undefined behaviour when `unique` compares an empty entry with a
  neighbour. A lone empty entry, for example, goes through unharmed.
- DomainChecker.IsForbidden: requires a non-empty query, so an empty query
  line is not modelled. The source never
  reads the query's last character when the search finds no floor and the
  list does not have exactly one entry.
- CheckerProperties.Completeness: is stated only for well-formed entries.
  `Scenarios.HyphenHidesParent` shows that it fails otherwise.
- CheckerProperties.BuildAntichain: is stated only for well-formed entries.
  Otherwise only neighbours are guaranteed apart (`DomainChecker.Build`), and
  a nesting pair can survive (`Scenarios.NestedPairKept`).

=== FILE: checker.dfy ===
/**
 The `DomainChecker`: a block list that is sorted by the reversed text and
 stripped, left to right, of every entry that the last entry kept before it
 covers, then searched for the last entry not after a query (the floor) with
 `upper_bound`.
 */
module DomainChecker {
  import opened Text
  import opened Domains

  /** The retained block list. */
  datatype Checker = Checker(domains: seq<Domain>)

  /** The order the checker sorts and searches by: `GetDomain() < GetDomain()`. */
  predicate Precedes(a: Domain, b: Domain) {
    Less(a.reversed, b.reversed)
  }

  predicate NotAfter(a: Domain, b: Domain) {
    a == b || Precedes(a, b)
  }

  lemma NotAfterTransitive(a: Domain, b: Domain, c: Domain)
    requires NotAfter(a, b) && NotAfter(b, c)
    ensures NotAfter(a, c)
    ensures Precedes(a, b) || Precedes(b, c) ==> Precedes(a, c)
  {
    if Precedes(a, b) && Precedes(b, c) {
      LessTransitive(a.reversed, b.reversed, c.reversed);
    }
  }

  lemma NotAfterTotal(a: Domain, b: Domain)
    ensures NotAfter(a, b) || Precedes(b, a)
    ensures Precedes(a, b) ==> !NotAfter(b, a)
  {
    LessTotal(a.reversed, b.reversed);
    LessAsymmetric(a.reversed, b.reversed);
    LessIrreflexive(a.reversed);
  }

  predicate NonEmpty(s: seq<Domain>) {
    forall i :: 0 <= i < |s| ==> s[i].reversed != []
  }

  predicate Sorted(s: seq<Domain>) {
    forall i, j :: 0 <= i < j < |s| ==> NotAfter(s[i], s[j])
  }

  predicate StrictlySorted(s: seq<Domain>) {
    forall i, j :: 0 <= i < j < |s| ==> Precedes(s[i], s[j])
  }

  /** Every entry is well-formed (see `WellFormed`). */
  predicate AllWellFormed(s: seq<Domain>) {
    forall i :: 0 <= i < |s| ==> WellFormed(s[i])
  }

  /** No entry equals or lies under a different entry of the list. */
  predicate NonNesting(s: seq<Domain>)
    requires NonEmpty(s)
  {
    forall i, j :: 0 <= i < |s| && 0 <= j < |s| && i != j ==> !Covers(s[i], s[j])
  }

  /** What every checker the constructor builds satisfies. */
  predicate Valid(c: Checker) {
    StrictlySorted(c.domains) && NonEmpty(c.domains)
  }

  lemma StrictlySortedIsSorted(s: seq<Domain>)
    requires StrictlySorted(s)
    ensures Sorted(s)
  {
  }

  // ---------------------------------------------------------------------
  // Sorting (`std::sort` with the reversed-text order)
  // ---------------------------------------------------------------------

  /** Inserts `x` into an ascending list. */
  function Insert(x: Domain, s: seq<Domain>): (r: seq<Domain>)
    requires Sorted(s)
    ensures Sorted(r)
    ensures multiset(r) == multiset(s) + multiset{x}
  {
    if s == [] then [x]
    else if NotAfter(x, s[0]) then
      InsertFrontSorted(x, s);
      [x] + s
    else
      var t := Insert(x, s[1..]);
      NotAfterTotal(x, s[0]);
      assert s == [s[0]] + s[1..];
      InsertBehindSorted(s[0], x, s[1..], t);
      [s[0]] + t
  }

  lemma InsertFrontSorted(x: Domain, s: seq<Domain>)
    requires Sorted(s) && s != [] && NotAfter(x, s[0])
    ensures Sorted([x] + s)
  {
    forall j | 0 <= j < |s|
      ensures NotAfter(x, s[j])
    {
      NotAfterTransitive(x, s[0], s[j]);
    }
  }

  lemma InsertBehindSorted(h: Domain, x: Domain, rest: seq<Domain>, t: seq<Domain>)
    requires Sorted([h] + rest) && Sorted(t) && NotAfter(h, x)
    requires multiset(t) == multiset(rest) + multiset{x}
    ensures Sorted([h] + t)
  {
    forall j | 0 <= j < |t|
      ensures NotAfter(h, t[j])
    {
      assert t[j] in multiset(t);
      if t[j] != x {
        assert t[j] in multiset(rest);
        var k :| 0 <= k < |rest| && rest[k] == t[j];
        assert ([h] + rest)[0] == h && ([h] + rest)[k + 1] == rest[k];
      }
    }
  }

  /** Some ascending permutation of `s` (which one does not matter: entries
      with equal keys are equal). */
  function Sort(s: seq<Domain>): (r: seq<Domain>)
    ensures Sorted(r)
    ensures multiset(r) == multiset(s)
    ensures |r| == |s|
  {
    if s == [] then []
    else
      assert s == [s[0]] + s[1..];
      Insert(s[0], Sort(s[1..]))
  }

  lemma SortSameElements(s: seq<Domain>)
    ensures forall x :: x in Sort(s) <==> x in s
    ensures NonEmpty(s) ==> NonEmpty(Sort(s))
  {
    var r := Sort(s);
    forall x
      ensures x in r <==> x in s
    {
      assert x in r <==> x in multiset(r);
      assert x in s <==> x in multiset(s);
    }
    if NonEmpty(s) {
      forall i | 0 <= i < |r|
        ensures r[i].reversed != []
      {
        assert r[i] in s;
      }
    }
  }

  // ---------------------------------------------------------------------
  // Removing covered entries (`std::unique` with a non-symmetric test)
  // ---------------------------------------------------------------------

  /**
   One step of `std::unique` as libstdc++ performs it: the next element is
   compared with the LAST RETAINED one and dropped when that covers it.
   */
  function Step(kept: seq<Domain>, x: Domain): (r: seq<Domain>)
    requires NonEmpty(kept) && x.reversed != []
    ensures r == kept || r == kept + [x]
    ensures r == kept <==> kept != [] && Covers(kept[|kept| - 1], x)
  {
    if kept != [] && Covers(kept[|kept| - 1], x) then kept else kept + [x]
  }

  /** The entry at `i` is not covered by the entry before it. */
  predicate ApartFromPrevious(r: seq<Domain>, i: int)
    requires NonEmpty(r) && 0 < i < |r|
  {
    !Covers(r[i - 1], r[i])
  }

  /** No entry is covered by its neighbour before it. */
  predicate NeighboursApart(r: seq<Domain>)
    requires NonEmpty(r)
  {
    forall i :: 0 < i < |r| ==> ApartFromPrevious(r, i)
  }

  /** `std::unique` over the whole list: `Step` applied left to right, defined
      by recursion on the last element (`CheckerProperties.DedupIsFold`). */
  function Dedup(s: seq<Domain>): (r: seq<Domain>)
    requires NonEmpty(s)
    ensures NonEmpty(r)
    ensures |r| <= |s|
    ensures s != [] ==> r != [] && r[0] == s[0]
    ensures NeighboursApart(r)
  {
    if s == [] then []
    else
      var pre, x := s[..|s| - 1], s[|s| - 1];
      assert s == pre + [x];
      var kept := Dedup(pre);
      var r := Step(kept, x);
      DedupMembers(s, pre, x, kept, r);
      r
  }

  lemma DedupMembers(s: seq<Domain>, pre: seq<Domain>, last: Domain, kept: seq<Domain>, r: seq<Domain>)
    requires s == pre + [last] && last.reversed != []
    requires NonEmpty(s) && NonEmpty(kept)
    requires |kept| <= |pre| && (pre != [] ==> kept != [] && kept[0] == pre[0])
    requires r == Step(kept, last)
    requires NeighboursApart(kept)
    ensures NonEmpty(r)
    ensures |r| <= |s|
    ensures r != [] && r[0] == s[0]
    ensures NeighboursApart(r)
  {
    if r != kept {
      AppendApart(kept, last);
    }
  }

  /** Appending an element its predecessor does not cover keeps neighbours
      apart. */
  lemma AppendApart(kept: seq<Domain>, x: Domain)
    requires NonEmpty(kept) && NeighboursApart(kept) && x.reversed != []
    requires kept != [] ==> !Covers(kept[|kept| - 1], x)
    ensures NonEmpty(kept + [x]) && NeighboursApart(kept + [x])
  {
    var r := kept + [x];
    forall i | 0 < i < |r|
      ensures ApartFromPrevious(r, i)
    {
      if i < |kept| {
        assert ApartFromPrevious(kept, i);
        assert r[i - 1] == kept[i - 1] && r[i] == kept[i];
      }
    }
  }

  /** Every input element equals, or lies under, some retained element. */
  lemma {:induction false} DedupCovers(s: seq<Domain>)
    requires NonEmpty(s)
    ensures forall x :: x in s ==> exists d :: d in Dedup(s) && Covers(d, x)
  {
    if s != [] {
      var pre, last := s[..|s| - 1], s[|s| - 1];
      assert s == pre + [last];
      DedupCovers(pre);
      var kept := Dedup(pre);
      var r := Dedup(s);
      assert r == Step(kept, last);
      forall x | x in s
        ensures exists d :: d in r && Covers(d, x)
      {
        if x in pre {
          var d :| d in kept && Covers(d, x);
          assert d in r;
        } else {
          assert x == last;
          if r == kept {
            assert kept[|kept| - 1] in r;
          } else {
            assert r[|r| - 1] == last;
            assert last in r;
          }
        }
      }
    }
  }

  /** Every retained element comes from the input, as often at most as it
      occurs there. */
  lemma {:induction false} DedupSubMultiset(s: seq<Domain>)
    requires NonEmpty(s)
    ensures multiset(Dedup(s)) <= multiset(s)
  {
    if s != [] {
      var pre, x := s[..|s| - 1], s[|s| - 1];
      assert s == pre + [x];
      DedupSubMultiset(pre);
      assert multiset(s) == multiset(pre) + multiset{x};
    }
  }

  /** Dropping the last element of an ascending list leaves it ascending. */
  lemma SortedPrefix(s: seq<Domain>, pre: seq<Domain>, x: Domain)
    requires s == pre + [x] && Sorted(s)
    ensures Sorted(pre)
  {
    forall i, j | 0 <= i < j < |pre|
      ensures NotAfter(pre[i], pre[j])
    {
      assert s[i] == pre[i] && s[j] == pre[j];
    }
  }

  /** Applied to an ascending list, `std::unique` gives a strictly ascending
      one. */
  lemma {:induction false} DedupStrictlyAscending(s: seq<Domain>)
    requires NonEmpty(s) && Sorted(s)
    ensures StrictlySorted(Dedup(s))
  {
    if s != [] {
      var pre, x := s[..|s| - 1], s[|s| - 1];
      assert s == pre + [x];
      SortedPrefix(s, pre, x);
      DedupStrictlyAscending(pre);
      DedupSubMultiset(pre);
      DedupAscending(s, pre, x, Dedup(pre), Dedup(s));
    }
  }

  lemma DedupAscending(s: seq<Domain>, pre: seq<Domain>, x: Domain, kept: seq<Domain>, r: seq<Domain>)
    requires s == pre + [x] && Sorted(s) && x.reversed != []
    requires NonEmpty(s) && NonEmpty(kept)
    requires StrictlySorted(kept)
    requires multiset(kept) <= multiset(pre)
    requires r == Step(kept, x)
    ensures StrictlySorted(r)
  {
    if r != kept && kept != [] {
      LastKeptNotAfter(s, pre, x, kept);
      AppendAbove(kept, x);
    }
  }

  /** The last retained entry comes from the entries before `x`, so it is not
      sorted after `x`. */
  lemma LastKeptNotAfter(s: seq<Domain>, pre: seq<Domain>, x: Domain, kept: seq<Domain>)
    requires Sorted(s) && s == pre + [x]
    requires kept != [] && multiset(kept) <= multiset(pre)
    ensures NotAfter(kept[|kept| - 1], x)
  {
    var n := |kept| - 1;
    assert kept[n] in multiset(pre);
    var k :| 0 <= k < |pre| && pre[k] == kept[n];
    assert s[k] == kept[n] && s[|s| - 1] == x;
  }

  /** An element sorted after the last one extends a strictly ascending list. */
  lemma AppendAbove(s: seq<Domain>, x: Domain)
    requires StrictlySorted(s) && s != [] && Precedes(s[|s| - 1], x)
    ensures StrictlySorted(s + [x])
  {
    var n := |s| - 1;
    forall i | 0 <= i < n
      ensures Precedes(s[i], x)
    {
      NotAfterTransitive(s[i], s[n], x);
    }
  }

  /** Every element of a sub-multiset is an element of the whole. */
  lemma SubMultisetMembers(r: seq<Domain>, s: seq<Domain>)
    requires multiset(r) <= multiset(s)
    ensures forall d :: d in r ==> d in s
  {
    forall d | d in r
      ensures d in s
    {
      assert d in multiset(r);
    }
  }

  /** Building the checker: copy, sort, drop covered entries. All entries
      must be non-empty (see `IsSubdomain`). */
  function Build(entries: seq<Domain>): (c: Checker)
    requires NonEmpty(entries)
    ensures Valid(c)
    ensures |c.domains| <= |entries|
    ensures NeighboursApart(c.domains)
  {
    var sorted := Sort(entries);
    SortSameElements(entries);
    DedupStrictlyAscending(sorted);
    Checker(Dedup(sorted))
  }

  /** The retained entries are drawn from the entries given. */
  lemma BuildSubMultiset(entries: seq<Domain>)
    requires NonEmpty(entries)
    ensures multiset(Build(entries).domains) <= multiset(entries)
  {
    SortSameElements(entries);
    DedupSubMultiset(Sort(entries));
  }

  /** Every entry given to the constructor equals, or lies under, some
      retained entry. */
  lemma BuildCovers(entries: seq<Domain>)
    requires NonEmpty(entries)
    ensures forall e :: e in entries ==> exists d :: d in Build(entries).domains && Covers(d, e)
  {
    SortSameElements(entries);
    DedupCovers(Sort(entries));
  }

  // ---------------------------------------------------------------------
  // Lookup (`upper_bound`, one step back, and the one-entry branch)
  // ---------------------------------------------------------------------

  /** `i` is the floor position of `q`: the last entry not ordered after it. */
  ghost predicate IsFloor(d: seq<Domain>, q: Domain, i: int) {
    && 0 <= i < |d|
    && !Precedes(q, d[i])
    && (i + 1 == |d| || Precedes(q, d[i + 1]))
  }

  /**
   The answer the lookup gives, stated without the search: the floor entry
   covers the query, or the list has exactly one entry and that entry covers
   the query (whether or not it is the floor).
   */
  ghost predicate Verdict(d: seq<Domain>, q: Domain)
    requires NonEmpty(d) && q.reversed != []
  {
    || (exists i :: IsFloor(d, q, i) && Covers(d[i], q))
    || (|d| == 1 && Covers(d[0], q))
  }

  /** After the search, `hi` is the first entry ordered after `q`, so the
      floor is the entry just before it and nowhere else. */
  lemma FloorAt(d: seq<Domain>, q: Domain, hi: int)
    requires StrictlySorted(d) && 0 <= hi <= |d|
    requires forall i :: 0 <= i < hi ==> !Precedes(q, d[i])
    requires forall i :: hi <= i < |d| ==> Precedes(q, d[i])
    ensures forall i :: IsFloor(d, q, i) <==> 0 < hi && i == hi - 1
  {
    forall i
      ensures IsFloor(d, q, i) <==> 0 < hi && i == hi - 1
    {
      if 0 <= i < hi - 1 {
        assert !Precedes(q, d[i + 1]);
      } else if i == hi - 1 && 0 <= i {
        assert !Precedes(q, d[i]);
        assert hi < |d| ==> Precedes(q, d[hi]);
      } else if hi <= i < |d| {
        assert Precedes(q, d[i]);
      }
    }
  }

  /**
   `std::upper_bound`: binary search for the first position whose entry is
   ordered after `q`; every entry before it is not.
   */
  method UpperBound(d: seq<Domain>, q: Domain) returns (hi: int)
    requires StrictlySorted(d)
    ensures 0 <= hi <= |d|
    ensures forall i :: 0 <= i < hi ==> !Precedes(q, d[i])
    ensures forall i :: hi <= i < |d| ==> Precedes(q, d[i])
  {
    var lo := 0;
    hi := |d|;
    while lo < hi
      invariant 0 <= lo <= hi <= |d|
      invariant forall i :: 0 <= i < lo ==> !Precedes(q, d[i])
      invariant forall i :: hi <= i < |d| ==> Precedes(q, d[i])
      decreases hi - lo
    {
      var mid := (lo + hi) / 2;
      if Precedes(q, d[mid]) {
        forall i | mid < i < |d|
          ensures Precedes(q, d[i])
        {
          NotAfterTransitive(q, d[mid], d[i]);
        }
        hi := mid;
      } else {
        forall i | 0 <= i < mid
          ensures !Precedes(q, d[i])
        {
          if Precedes(q, d[i]) {
            NotAfterTransitive(q, d[i], d[mid]);
          }
        }
        lo := mid + 1;
      }
    }
  }

  /** An entry equal to the query is the query's floor. */
  lemma MemberIsFloor(d: seq<Domain>, q: Domain)
    requires StrictlySorted(d) && q in d
    ensures exists k :: IsFloor(d, q, k) && d[k] == q
  {
    var k :| 0 <= k < |d| && d[k] == q;
    LessIrreflexive(q.reversed);
    assert IsFloor(d, q, k);
  }

  /** A "forbidden" verdict always names an entry that covers the query. */
  lemma VerdictSound(d: seq<Domain>, q: Domain)
    requires NonEmpty(d) && q.reversed != []
    ensures Verdict(d, q) ==> exists e :: e in d && Covers(e, q)
  {
    if Verdict(d, q) {
      if |d| == 1 && Covers(d[0], q) {
        assert d[0] in d;
      } else {
        var i :| IsFloor(d, q, i) && Covers(d[i], q);
        assert d[i] in d;
      }
    }
  }

  /**
   `IsForbidden`: find the first entry ordered after the query, step back to
   the floor, test it; then, for a one-entry list, test that entry again
   from wherever the search left the position.
   */
  method IsForbidden(c: Checker, query: Domain) returns (forbidden: bool)
    requires Valid(c) && query.reversed != []
    ensures forbidden <==> Verdict(c.domains, query)
    ensures forbidden ==> exists d :: d in c.domains && Covers(d, query)
    ensures c.domains == [] ==> !forbidden
    ensures query in c.domains ==> forbidden
  {
    var d := c.domains;
    var it := UpperBound(d, query);
    FloorAt(d, query, it);
    VerdictSound(d, query);
    if query in d {
      MemberIsFloor(d, query);
    }
    if it != 0 {
      it := it - 1;
      if GetDomain(d[it]) == GetDomain(query) {
        return true;
      }
      if IsSubdomain(d[it], query) {
        return true;
      }
    }
    if |d| == 1 {
      if GetDomain(d[it]) == GetDomain(query) {
        return true;
      }
      if IsSubdomain(d[it], query) {
        return true;
      }
    }
    return false;
  }
}

=== FILE: domain.dfy ===
/**
 The `Domain` value: an internet domain name kept as the character-wise
 reversal of its text, so that "yandex.ru" is held as "ur.xednay". In that form
 a parent domain is a prefix of its subdomains. For well-formed names (see
 `WellFormed`) the ordering of `std::string` also groups a domain with
 everything below it; a character that sorts below `.`, such as `-`, can put
 an unrelated name in between.
 */
module Domains {
  import opened Text

  datatype Domain = Domain(reversed: string)

  /** Builds a domain from its name as written, storing the reversed text. */
  function FromName(name: string): (d: Domain)
    ensures |d.reversed| == |name|
    ensures forall i :: 0 <= i < |name| ==> d.reversed[i] == name[|name| - 1 - i]
  {
    Domain(Reverse(name))
  }

  /** The stored (reversed) text, as `GetDomain` hands it out. */
  function GetDomain(d: Domain): (r: string) {
    d.reversed
  }

  /** Reversing the stored text gives back the name exactly as it was given. */
  lemma GetDomainRoundTrip(name: string)
    ensures Reverse(GetDomain(FromName(name))) == name
    ensures GetDomain(FromName(name)) == Reverse(name)
  {
    ReverseInvolution(name);
  }

  /** Equality of the stored texts (the class's `operator==`). */
  predicate Equal(a: Domain, b: Domain) {
    GetDomain(a) == GetDomain(b)
  }

  /** Two names give equal domains exactly when they are the same text. */
  lemma EqualNames(x: string, y: string)
    ensures Equal(FromName(x), FromName(y)) <==> x == y
  {
    ReverseInjective(x, y);
  }

  /** The stored text with a separator appended unless it already ends in one.
      The text must be non-empty: the source reads its last character. */
  function Padded(s: string): (r: string)
    requires s != []
  {
    if s[|s| - 1] != '.' then s + ['.'] else s
  }

  /** `s.substr(pos, count)`: at most `count` characters starting at `pos`. */
  function Substr(s: string, pos: nat, count: nat): (r: string)
    requires pos <= |s|
    ensures |r| == if count <= |s| - pos then count else |s| - pos
    ensures forall i :: 0 <= i < |r| ==> r[i] == s[pos + i]
  {
    if count <= |s| - pos then s[pos..pos + count] else s[pos..]
  }

  /**
   Whether `sub` is `parent` or lies below it: after padding both stored texts
   with a trailing separator, the parent's text must start the other's.
   Both texts must be non-empty: the source reads their last characters.
   */
  predicate IsSubdomain(parent: Domain, sub: Domain)
    requires parent.reversed != [] && sub.reversed != []
  {
    StartsWith(Padded(parent.reversed), Padded(sub.reversed))
  }

  /** The test as the class writes it: the padded parent text equals as many
      leading characters of the padded subdomain text as it has itself. */
  lemma SubdomainAsWritten(parent: Domain, sub: Domain)
    requires parent.reversed != [] && sub.reversed != []
    ensures var domain, subD := Padded(parent.reversed), Padded(sub.reversed);
      IsSubdomain(parent, sub) <==> domain == Substr(subD, 0, |domain|)
  {
    SubdomainPrefix(parent, sub);
  }

  /** `IsSubdomain` is the prefix relation on the padded stored texts. */
  lemma SubdomainPrefix(parent: Domain, sub: Domain)
    requires parent.reversed != [] && sub.reversed != []
    ensures IsSubdomain(parent, sub) <==> Padded(parent.reversed) <= Padded(sub.reversed)
  {
    StartsWithPrefix(Padded(parent.reversed), Padded(sub.reversed));
  }

  /** The test `std::unique` and the lookup apply: `x` equals `parent` or is
      a subdomain of it. */
  predicate Covers(parent: Domain, x: Domain)
    requires parent.reversed != [] && x.reversed != []
  {
    parent == x || IsSubdomain(parent, x)
  }

  /** The equality test in `Covers` adds nothing: `IsSubdomain` is reflexive. */
  lemma CoversIsSubdomain(a: Domain, b: Domain)
    requires a.reversed != [] && b.reversed != []
    ensures Covers(a, b) <==> IsSubdomain(a, b)
  {
    SubdomainReflexive(a);
  }

  lemma SubdomainReflexive(d: Domain)
    requires d.reversed != []
    ensures IsSubdomain(d, d)
  {
    SubdomainPrefix(d, d);
  }

  lemma SubdomainTransitive(a: Domain, b: Domain, c: Domain)
    requires a.reversed != [] && b.reversed != [] && c.reversed != []
    requires IsSubdomain(a, b) && IsSubdomain(b, c)
    ensures IsSubdomain(a, c)
  {
    SubdomainPrefix(a, b);
    SubdomainPrefix(b, c);
    SubdomainPrefix(a, c);
  }

  lemma CoversTransitive(a: Domain, b: Domain, c: Domain)
    requires a.reversed != [] && b.reversed != [] && c.reversed != []
    requires Covers(a, b) && Covers(b, c)
    ensures Covers(a, c)
  {
    CoversIsSubdomain(a, b);
    CoversIsSubdomain(b, c);
    SubdomainTransitive(a, b, c);
  }

  /** The name with one leading separator dropped, if it has one. */
  function Bare(name: string): (r: string) {
    if name != [] && name[0] == '.' then name[1..] else name
  }

  /** Padding the stored text of a name is the same as reversing the bare name
      and appending a separator. */
  lemma PaddedReverse(name: string)
    requires name != []
    ensures Padded(Reverse(name)) == Reverse(Bare(name)) + ['.']
  {
    assert Reverse(name) == Reverse(name[1..]) + [name[0]];
  }

  lemma PrefixWithMark(x: string, y: string, c: char)
    ensures x + [c] <= y + [c] <==> x == y || x + [c] <= y
  {
    if x + [c] <= y + [c] && |x| == |y| {
      assert x == (x + [c])[..|x|] == (y + [c])[..|y|] == y;
    }
  }

  /**
   What `IsSubdomain` means for the names as written: after dropping at most
   one leading separator from each name, the names are equal or the child
   ends with a separator followed by the parent. Labels match whole.
   */
  lemma SubdomainMeaning(parent: string, child: string)
    requires parent != [] && child != []
    ensures IsSubdomain(FromName(parent), FromName(child))
        <==> Bare(parent) == Bare(child) || IsSuffix(['.'] + Bare(parent), Bare(child))
  {
    var p, c := Reverse(Bare(parent)), Reverse(Bare(child));
    SubdomainPrefix(FromName(parent), FromName(child));
    PaddedReverse(parent);
    PaddedReverse(child);
    PrefixWithMark(p, c, '.');
    ReverseInjective(Bare(parent), Bare(child));
    ReverseAppend(['.'], Bare(parent));
    assert Reverse(['.']) == ['.'];
    ReversePrefixSuffix(['.'] + Bare(parent), Bare(child));
  }

  /** The padding looks at the end of the stored text, that is, at a LEADING
      separator of the name: ".com" and "com" are each other's subdomain. */
  lemma LeadingSeparatorIgnored(name: string)
    requires name != [] && name[0] != '.'
    ensures IsSubdomain(FromName(['.'] + name), FromName(name))
    ensures IsSubdomain(FromName(name), FromName(['.'] + name))
  {
    assert Bare(['.'] + name) == name;
    SubdomainMeaning(['.'] + name, name);
    SubdomainMeaning(name, ['.'] + name);
  }

  /** A TRAILING separator is not normalised: "example.com." and
      "example.com" are unrelated. */
  lemma TrailingSeparatorKept(name: string)
    requires name != [] && name[|name| - 1] != '.'
    ensures !IsSubdomain(FromName(name + ['.']), FromName(name))
    ensures !IsSubdomain(FromName(name), FromName(name + ['.']))
  {
    var a, b := FromName(name + ['.']).reversed, FromName(name).reversed;
    SubdomainPrefix(FromName(name + ['.']), FromName(name));
    SubdomainPrefix(FromName(name), FromName(name + ['.']));
    assert a[0] == '.' && b[0] != '.';
    assert Padded(a)[0] != Padded(b)[0];
  }

  /**
   The entries for which the floor search is complete: non-empty, not
   starting with a separator, and made only of `.` and characters that sort
   above it (letters and digits do; `-` does not).
   */
  predicate WellFormed(d: Domain) {
    && d.reversed != []
    && d.reversed[|d.reversed| - 1] != '.'
    && forall k :: 0 <= k < |d.reversed| ==> '.' <= d.reversed[k]
  }

  /** `WellFormed` in terms of the name as written. */
  lemma WellFormedName(name: string)
    ensures WellFormed(FromName(name))
        <==> name != [] && name[0] != '.' && forall k :: 0 <= k < |name| ==> '.' <= name[k]
  {
    var r := FromName(name).reversed;
    if name != [] && name[0] != '.' && forall k :: 0 <= k < |name| ==> '.' <= name[k] {
      assert forall k :: 0 <= k < |r| ==> '.' <= r[k] by {
        forall k | 0 <= k < |r|
          ensures '.' <= r[k]
        {
          assert r[k] == name[|name| - 1 - k];
        }
      }
    }
    if WellFormed(FromName(name)) {
      assert forall k :: 0 <= k < |name| ==> '.' <= name[k] by {
        forall k | 0 <= k < |name|
          ensures '.' <= name[k]
        {
          assert r[|name| - 1 - k] == name[k];
        }
      }
    }
  }

  /** For a well-formed parent, `Covers` is equality or "the parent's text and
      a separator start the other text". */
  lemma CoversWellFormed(parent: Domain, x: Domain)
    requires WellFormed(parent) && x.reversed != []
    ensures Covers(parent, x) <==> parent == x || parent.reversed + ['.'] <= x.reversed
  {
    var p, s := parent.reversed, x.reversed;
    CoversIsSubdomain(parent, x);
    SubdomainPrefix(parent, x);
    if s[|s| - 1] != '.' {
      PrefixWithMark(p, s, '.');
    }
  }
}

=== FILE: properties.dfy ===
/**
 What the constructor and the lookup of `DomainChecker` guarantee: the built
 list depends only on the set of entries and is a fixed point of building;
 every answer "forbidden" is justified by an entry; and, for entries drawn
 from the usual domain-name alphabet, the retained list is pairwise
 non-nesting and the lookup finds every covered query.
 */
module CheckerProperties {
  import opened Text
  import opened Domains
  import opened DomainChecker

  // ---------------------------------------------------------------------
  // The constructor's result depends only on the set of entries
  // ---------------------------------------------------------------------

  /** Feeding the same element twice in a row to `std::unique` drops the
      second copy, whatever was retained before. */
  lemma StepRepeat(kept: seq<Domain>, x: Domain)
    requires NonEmpty(kept) && x.reversed != []
    ensures Step(Step(kept, x), x) == Step(kept, x)
  {
  }

  lemma DropRepeat(s: seq<Domain>)
    requires NonEmpty(s) && |s| >= 2 && s[|s| - 1] == s[|s| - 2]
    ensures Dedup(s) == Dedup(s[..|s| - 1])
  {
    var n := |s|;
    var pre := s[..n - 1];
    assert pre[..n - 2] == s[..n - 2];
    StepRepeat(Dedup(s[..n - 2]), s[n - 1]);
  }

  /** The loop of libstdc++'s `unique`: starting from the elements retained so
      far, the remaining elements are fed to `Step` one by one, first to last. */
  function StepEach(kept: seq<Domain>, rest: seq<Domain>): (r: seq<Domain>)
    requires NonEmpty(kept) && NonEmpty(rest)
    ensures NonEmpty(r)
    ensures |r| <= |kept| + |rest|
    decreases |rest|
  {
    if rest == [] then kept else StepEach(Step(kept, rest[0]), rest[1..])
  }

  /** Deduplicating `pre` and then feeding `rest` through the loop gives the
      deduplicated whole. */
  lemma {:induction false} DedupThenStepEach(pre: seq<Domain>, rest: seq<Domain>)
    requires NonEmpty(pre) && NonEmpty(rest)
    ensures Dedup(pre + rest) == StepEach(Dedup(pre), rest)
    decreases |rest|
  {
    if rest == [] {
      assert pre + rest == pre;
    } else {
      var x := rest[0];
      assert (pre + [x])[..|pre|] == pre;
      assert pre + rest == (pre + [x]) + rest[1..];
      DedupThenStepEach(pre + [x], rest[1..]);
    }
  }

  /** `Dedup` is the left fold of `Step` over the list, starting from nothing
      retained: the loop libstdc++ runs. */
  lemma DedupIsFold(s: seq<Domain>)
    requires NonEmpty(s)
    ensures Dedup(s) == StepEach([], s)
  {
    DedupThenStepEach([], s);
    assert [] + s == s;
  }

  /** In an ascending list whose last two entries differ, the last entry
      occurs only once. */
  lemma LastOccursOnce(s: seq<Domain>)
    requires Sorted(s) && |s| >= 2 && s[|s| - 1] != s[|s| - 2]
    ensures s[|s| - 1] !in s[..|s| - 1]
  {
    var n := |s|;
    NotAfterTotal(s[n - 2], s[n - 1]);
  }

  /** The last entry of an ascending list is its largest element. */
  lemma LastIsLargest(s: seq<Domain>, y: Domain)
    requires Sorted(s) && s != [] && y in s
    ensures NotAfter(y, s[|s| - 1])
  {
  }

  lemma RepeatedLastElements<T>(s: seq<T>)
    requires |s| >= 2 && s[|s| - 1] == s[|s| - 2]
    ensures forall y :: y in s[..|s| - 1] <==> y in s
  {
    assert s == s[..|s| - 1] + [s[|s| - 1]];
  }

  /** Dropping the last element keeps a list non-empty-entried and sorted,
      and `std::unique` handles the last element after all the others. */
  lemma DropLast(s: seq<Domain>)
    requires s != [] && NonEmpty(s) && Sorted(s)
    ensures NonEmpty(s[..|s| - 1]) && Sorted(s[..|s| - 1])
    ensures Dedup(s) == Step(Dedup(s[..|s| - 1]), s[|s| - 1])
  {
  }

  lemma SameElementsBeforeLast<T>(s: seq<T>, s': seq<T>, t: seq<T>, t': seq<T>, x: T)
    requires s == s' + [x] && t == t' + [x]
    requires x !in s' && x !in t'
    requires forall y :: y in s <==> y in t
    ensures forall y :: y in s' <==> y in t'
  {
    forall y
      ensures y in s' <==> y in t'
    {
      assert y in s <==> y in s' || y == x;
      assert y in t <==> y in t' || y == x;
    }
  }

  lemma SameElementsEmpty<T>(s: seq<T>, t: seq<T>)
    requires forall x :: x in s <==> x in t
    ensures s == [] <==> t == []
  {
    if s != [] {
      assert s[0] in s;
    }
    if t != [] {
      assert t[0] in t;
    }
  }

  /** Two ascending lists with the same elements (counting no multiplicity)
      reduce to the same retained list. */
  lemma {:induction false} DedupBySet(s: seq<Domain>, t: seq<Domain>)
    requires NonEmpty(s) && NonEmpty(t) && Sorted(s) && Sorted(t)
    requires forall x :: x in s <==> x in t
    ensures Dedup(s) == Dedup(t)
    decreases |s| + |t|, 1
  {
    var n, m := |s|, |t|;
    SameElementsEmpty(s, t);
    if n == 0 {
    } else if n >= 2 && s[n - 1] == s[n - 2] {
      DropRepeat(s);
      RepeatedLastElements(s);
      DedupBySet(s[..n - 1], t);
    } else if m >= 2 && t[m - 1] == t[m - 2] {
      DropRepeat(t);
      RepeatedLastElements(t);
      DedupBySet(s, t[..m - 1]);
    } else {
      DedupBySetDistinctLast(s, t);
    }
  }

  /** Two ascending lists with the same elements end in the same element. */
  lemma LastEqual(s: seq<Domain>, t: seq<Domain>)
    requires Sorted(s) && Sorted(t) && s != [] && t != []
    requires forall x :: x in s <==> x in t
    ensures s[|s| - 1] == t[|t| - 1]
  {
    LastIsLargest(t, s[|s| - 1]);
    LastIsLargest(s, t[|t| - 1]);
    NotAfterTotal(s[|s| - 1], t[|t| - 1]);
  }

  /** An ascending list not ending in a repeated element is the list before
      its last element, which does not hold it, followed by that element. */
  lemma SplitLast(s: seq<Domain>, s': seq<Domain>)
    requires Sorted(s) && s != [] && s' == s[..|s| - 1]
    requires |s| >= 2 ==> s[|s| - 1] != s[|s| - 2]
    ensures s == s' + [s[|s| - 1]] && s[|s| - 1] !in s'
  {
    if |s| >= 2 {
      LastOccursOnce(s);
    }
  }

  /** Two ascending lists with the same elements, neither ending in a
      repeated element, end in the same element, and what comes before it
      has the same elements on both sides. */
  lemma LastAgrees(s: seq<Domain>, t: seq<Domain>, s': seq<Domain>, t': seq<Domain>)
    requires Sorted(s) && Sorted(t) && s != [] && t != []
    requires s' == s[..|s| - 1] && t' == t[..|t| - 1]
    requires |s| >= 2 ==> s[|s| - 1] != s[|s| - 2]
    requires |t| >= 2 ==> t[|t| - 1] != t[|t| - 2]
    requires forall x :: x in s <==> x in t
    ensures s[|s| - 1] == t[|t| - 1]
    ensures forall y :: y in s' <==> y in t'
  {
    var x := s[|s| - 1];
    LastEqual(s, t);
    assert t[|t| - 1] == x;
    SplitLast(s, s');
    SplitLast(t, t');
    assert t == t' + [x] && x !in t';
    SameElementsBeforeLast(s, s', t, t', x);
  }

  /** `DedupBySet` when neither list ends in a repeated element. */
  lemma {:induction false} DedupBySetDistinctLast(s: seq<Domain>, t: seq<Domain>)
    requires NonEmpty(s) && NonEmpty(t) && Sorted(s) && Sorted(t)
    requires s != [] && t != []
    requires |s| >= 2 ==> s[|s| - 1] != s[|s| - 2]
    requires |t| >= 2 ==> t[|t| - 1] != t[|t| - 2]
    requires forall x :: x in s <==> x in t
    ensures Dedup(s) == Dedup(t)
    decreases |s| + |t|, 0
  {
    var s', t' := s[..|s| - 1], t[..|t| - 1];
    LastAgrees(s, t, s', t');
    DropLast(s);
    DropLast(t);
    DedupBySet(s', t');
  }

  /** The order of the entries and repeated entries do not matter: the
      retained list is determined by the set of entries. */
  lemma BuildDependsOnlyOnSet(a: seq<Domain>, b: seq<Domain>)
    requires NonEmpty(a) && NonEmpty(b)
    requires forall x :: x in a <==> x in b
    ensures Build(a) == Build(b)
  {
    SortSameElements(a);
    SortSameElements(b);
    DedupBySet(Sort(a), Sort(b));
  }

  /** Dropping the last entry keeps neighbours apart. */
  lemma NeighboursApartPrefix(r: seq<Domain>)
    requires NonEmpty(r) && NeighboursApart(r) && r != []
    ensures NonEmpty(r[..|r| - 1]) && NeighboursApart(r[..|r| - 1])
  {
    var pre := r[..|r| - 1];
    forall i | 0 < i < |pre|
      ensures ApartFromPrevious(pre, i)
    {
      assert ApartFromPrevious(r, i);
    }
  }

  /** The last entry of such a list is kept by one step after the others. */
  lemma StepKeepsLast(r: seq<Domain>)
    requires NonEmpty(r) && NeighboursApart(r) && r != []
    ensures NonEmpty(r[..|r| - 1]) && r[|r| - 1].reversed != []
    ensures Step(r[..|r| - 1], r[|r| - 1]) == r
  {
    var n := |r| - 1;
    var pre := r[..n];
    assert r == pre + [r[n]];
    if n > 0 {
      assert ApartFromPrevious(r, n);
      assert pre[n - 1] == r[n - 1];
    }
  }

  /** A list whose neighbours never cover each other passes `std::unique`
      unchanged. */
  lemma {:induction false} DedupKeeps(r: seq<Domain>)
    requires NonEmpty(r)
    requires NeighboursApart(r)
    ensures Dedup(r) == r
  {
    if r != [] {
      NeighboursApartPrefix(r);
      DedupKeeps(r[..|r| - 1]);
      StepKeepsLast(r);
    }
  }

  /** Building from the retained list gives the retained list back. */
  lemma BuildIdempotent(entries: seq<Domain>)
    requires NonEmpty(entries)
    ensures Build(Build(entries).domains) == Build(entries)
  {
    var r := Build(entries).domains;
    SortSameElements(r);
    StrictlySortedIsSorted(r);
    DedupBySet(Sort(r), r);
    DedupKeeps(r);
  }

  // ---------------------------------------------------------------------
  // Non-nesting, under the domain-name alphabet
  // ---------------------------------------------------------------------

  lemma WellFormedNonEmpty(s: seq<Domain>)
    requires AllWellFormed(s)
    ensures NonEmpty(s)
  {
    forall d | d in s
      ensures d.reversed != []
    {
      var k :| 0 <= k < |s| && s[k] == d;
    }
  }

  /** A sub-multiset of well-formed entries is well-formed. */
  lemma WellFormedSubMultiset(r: seq<Domain>, s: seq<Domain>)
    requires multiset(r) <= multiset(s) && AllWellFormed(s)
    ensures AllWellFormed(r)
  {
    SubMultisetMembers(r, s);
    forall i | 0 <= i < |r|
      ensures WellFormed(r[i])
    {
      assert r[i] in s;
      var k :| 0 <= k < |s| && s[k] == r[i];
    }
  }

  /** An entry that does not cover the next retained entry `b` cannot cover
      anything sorted after `b` either: labels use only characters that sort
      no lower than the separator. */
  lemma NoCoverBeyond(a: Domain, b: Domain, x: Domain)
    requires WellFormed(a) && WellFormed(b) && x.reversed != []
    requires Precedes(a, b) && NotAfter(b, x)
    requires !Covers(a, b)
    ensures !Covers(a, x)
  {
    NotAfterTransitive(a, b, x);
    LessIrreflexive(a.reversed);
    CoversWellFormed(a, x);
    CoversWellFormed(a, b);
    if Covers(a, x) {
      Between(a.reversed, b.reversed, x.reversed);
    }
  }

  /** No entry covers a later one. */
  predicate NoLaterCovered(r: seq<Domain>)
    requires NonEmpty(r)
  {
    forall i, j :: 0 <= i < j < |r| ==> !Covers(r[i], r[j])
  }

  lemma NoLaterCoveredExtend(kept: seq<Domain>, x: Domain)
    requires NonEmpty(kept) && x.reversed != [] && NoLaterCovered(kept)
    requires forall i :: 0 <= i < |kept| ==> !Covers(kept[i], x)
    ensures NonEmpty(kept + [x]) && NoLaterCovered(kept + [x])
  {
  }

  /** The step of `DedupAntichain`: a new entry `x`, sorted no lower than the
      last retained entry and not covered by it, is covered by no retained
      entry. */
  lemma NoRetainedCovers(kept: seq<Domain>, x: Domain)
    requires AllWellFormed(kept) && StrictlySorted(kept) && x.reversed != []
    requires kept != [] && NotAfter(kept[|kept| - 1], x) && !Covers(kept[|kept| - 1], x)
    requires NoLaterCovered(kept)
    ensures forall i :: 0 <= i < |kept| ==> !Covers(kept[i], x)
  {
    var n := |kept| - 1;
    forall i | 0 <= i < n
      ensures !Covers(kept[i], x)
    {
      var a, b := kept[i], kept[n];
      assert WellFormed(a) && WellFormed(b);
      assert Precedes(a, b) && !Covers(a, b);
      NoCoverBeyond(a, b, x);
    }
  }

  /** With well-formed entries, no retained entry covers a later one: not
      only its neighbour, but any. */
  lemma {:induction false} DedupAntichain(s: seq<Domain>)
    requires Sorted(s)
    requires AllWellFormed(s) && NonEmpty(s)
    ensures NoLaterCovered(Dedup(s))
  {
    if s != [] {
      var pre, x := s[..|s| - 1], s[|s| - 1];
      assert s == pre + [x];
      assert Sorted(pre) && AllWellFormed(pre);
      DedupAntichain(pre);
      SortedPrefix(s, pre, x);
      DedupStrictlyAscending(pre);
      var kept := Dedup(pre);
      DedupSubMultiset(pre);
      if Dedup(s) != kept && kept != [] {
        WellFormedSubMultiset(kept, pre);
        LastKeptNotAfter(s, pre, x, kept);
        NoRetainedCovers(kept, x);
        NoLaterCoveredExtend(kept, x);
      }
    }
  }

  /** In a strictly ascending list of well-formed entries, an entry never
      covers an earlier one. */
  lemma NoEarlierCovered(d: seq<Domain>)
    requires StrictlySorted(d) && AllWellFormed(d) && NonEmpty(d)
    ensures forall i, j :: 0 <= j < i < |d| ==> !Covers(d[i], d[j])
  {
    forall i, j | 0 <= j < i < |d|
      ensures !Covers(d[i], d[j])
    {
      CoversWellFormed(d[i], d[j]);
      if d[i].reversed + ['.'] <= d[j].reversed {
        PrefixLessEq(d[i].reversed, d[j].reversed);
      }
      LessAsymmetric(d[j].reversed, d[i].reversed);
      LessIrreflexive(d[i].reversed);
    }
  }

  /** The retained list of well-formed entries is pairwise non-nesting. */
  lemma BuildAntichain(entries: seq<Domain>)
    requires AllWellFormed(entries) && NonEmpty(entries)
    ensures AllWellFormed(Build(entries).domains)
    ensures NonNesting(Build(entries).domains)
  {
    var sorted := Sort(entries);
    var d := Build(entries).domains;
    WellFormedSubMultiset(sorted, entries);
    DedupAntichain(sorted);
    assert d == Dedup(sorted);
    BuildSubMultiset(entries);
    WellFormedSubMultiset(d, entries);
    NoEarlierCovered(d);
  }

  // ---------------------------------------------------------------------
  // Soundness and completeness of the lookup
  // ---------------------------------------------------------------------

  /** So a query the built checker forbids is covered by an input entry. */
  lemma BuildVerdictSound(entries: seq<Domain>, q: Domain)
    requires NonEmpty(entries) && q.reversed != []
    ensures Verdict(Build(entries).domains, q) ==> exists e :: e in entries && Covers(e, q)
  {
    var d := Build(entries).domains;
    VerdictSound(d, q);
    if Verdict(d, q) {
      var e :| e in d && Covers(e, q);
      BuildSubMultiset(entries);
      SubMultisetMembers(d, entries);
    }
  }

  /** Some floor position exists at or after any entry not ordered after `q`. */
  lemma FindFloor(d: seq<Domain>, q: Domain, k: int)
    requires StrictlySorted(d) && 0 <= k < |d| && !Precedes(q, d[k])
    ensures exists i :: k <= i < |d| && IsFloor(d, q, i)
    decreases |d| - k
  {
    if k + 1 < |d| && !Precedes(q, d[k + 1]) {
      FindFloor(d, q, k + 1);
    } else {
      assert IsFloor(d, q, k);
    }
  }

  /** In a sorted, non-nesting list of well-formed entries, an entry that
      covers the query is exactly the query's floor. */
  lemma CoveringEntryIsFloor(d: seq<Domain>, q: Domain, k: int)
    requires StrictlySorted(d) && q.reversed != []
    requires AllWellFormed(d)
    requires NonNesting(d)
    requires 0 <= k < |d| && Covers(d[k], q)
    ensures IsFloor(d, q, k)
  {
    var e := d[k];
    CoversWellFormed(e, q);
    if e != q {
      PrefixLessEq(e.reversed + ['.'], q.reversed);
      PrefixLessEq(e.reversed, e.reversed + ['.']);
      LessEqTransitive(e.reversed, e.reversed + ['.'], q.reversed);
    }
    LessAsymmetric(e.reversed, q.reversed);
    LessIrreflexive(e.reversed);
    FindFloor(d, q, k);
    var i :| k <= i < |d| && IsFloor(d, q, i);
    if i != k {
      var f := d[i];
      NotAfterTotal(f, q);
      CoversWellFormed(e, f);
      if e == q {
        NotAfterTransitive(e, f, q);
      } else {
        Between(e.reversed, f.reversed, q.reversed);
      }
    }
  }

  /**
   With well-formed entries, the lookup is exact: the query is forbidden if
   and only if some input entry equals it or is an ancestor of it.
   */
  lemma Completeness(entries: seq<Domain>, q: Domain)
    requires AllWellFormed(entries)
    requires q.reversed != []
    ensures Verdict(Build(entries).domains, q) <==> exists e :: e in entries && Covers(e, q)
  {
    var d := Build(entries).domains;
    BuildVerdictSound(entries, q);
    if exists e :: e in entries && Covers(e, q) {
      var e :| e in entries && Covers(e, q);
      BuildCovers(entries);
      var r :| r in d && Covers(r, e);
      CoversTransitive(r, e, q);
      var k :| 0 <= k < |d| && d[k] == r;
      BuildAntichain(entries);
      CoveringEntryIsFloor(d, q, k);
    }
  }

  /** For a sorted, non-nesting list of well-formed entries, the one-entry
      branch of the lookup never changes the answer. */
  lemma OneEntryBranchRedundant(d: seq<Domain>, q: Domain)
    requires StrictlySorted(d) && q.reversed != []
    requires AllWellFormed(d)
    requires NonNesting(d)
    ensures Verdict(d, q) <==> exists i :: IsFloor(d, q, i) && Covers(d[i], q)
  {
    if |d| == 1 && Covers(d[0], q) {
      CoveringEntryIsFloor(d, q, 0);
    }
  }

  /** With a single retained entry the lookup is exactly "that entry covers
      the query", including queries ordered before the entry. */
  lemma SingleEntry(e: Domain, q: Domain)
    requires e.reversed != [] && q.reversed != []
    ensures Verdict([e], q) <==> Covers(e, q)
  {
  }
}

=== FILE: scenarios.dfy ===
/**
 Concrete block lists and queries: what the subdomain test, the constructor
 and the lookup give on them. The lookup's answer is `Verdict` (see
 `DomainChecker.IsForbidden`).
 */
module Scenarios {
  import opened Text
  import opened Domains
  import opened DomainChecker
  import opened CheckerProperties

  /** The stored form of a name, given character by character. */
  lemma StoredAs(name: string, stored: string)
    requires |stored| == |name|
    requires forall i :: 0 <= i < |name| ==> stored[i] == name[|name| - 1 - i]
    ensures FromName(name) == Domain(stored)
  {
  }

  /** The stored texts of the three names below: "moc.elpmaxe." starts neither
      "moc.elpmaxeton." nor is it started by "moc.elpmaxe.a." the other way. */
  lemma ExampleTexts()
    ensures !IsSubdomain(Domain("moc.elpmaxe"), Domain("moc.elpmaxeton"))
    ensures IsSubdomain(Domain("moc.elpmaxe"), Domain("moc.elpmaxe.a"))
    ensures !IsSubdomain(Domain("moc.elpmaxe.a"), Domain("moc.elpmaxe"))
  {
    PaddedDiffer(Domain("moc.elpmaxe"), Domain("moc.elpmaxeton"), 11);
    SubdomainPrefix(Domain("moc.elpmaxe"), Domain("moc.elpmaxe.a"));
    SubdomainPrefix(Domain("moc.elpmaxe.a"), Domain("moc.elpmaxe"));
  }

  /** Labels match whole: "notexample.com" merely ends with the text
      "example.com" and is not below it. */
  lemma NotAPartialLabel()
    ensures !IsSubdomain(FromName("example.com"), FromName("notexample.com"))
  {
    StoredAs("example.com", "moc.elpmaxe");
    StoredAs("notexample.com", "moc.elpmaxeton");
    ExampleTexts();
  }

  /** "notmaps.com" lies below "com". */
  lemma BelowTopLevel()
    ensures IsSubdomain(FromName("com"), FromName("notmaps.com"))
  {
    StoredAs("com", "moc");
    StoredAs("notmaps.com", "moc.spamton");
    SubdomainPrefix(Domain("moc"), Domain("moc.spamton"));
  }

  /** "a.example.com" lies below "example.com", and not the other way round. */
  lemma OnlyDownwards()
    ensures IsSubdomain(FromName("example.com"), FromName("a.example.com"))
    ensures !IsSubdomain(FromName("a.example.com"), FromName("example.com"))
  {
    StoredAs("example.com", "moc.elpmaxe");
    StoredAs("a.example.com", "moc.elpmaxe.a");
    ExampleTexts();
  }

  /** Building from any entries equals reducing an ascending list with the
      same elements. */
  lemma BuildViaSorted(entries: seq<Domain>, t: seq<Domain>)
    requires NonEmpty(entries) && NonEmpty(t) && Sorted(t)
    requires forall x :: x in entries <==> x in t
    ensures Build(entries).domains == Dedup(t)
  {
    SortSameElements(entries);
    DedupBySet(Sort(entries), t);
  }

  lemma DedupAppend(pre: seq<Domain>, x: Domain)
    requires NonEmpty(pre) && x.reversed != []
    ensures Dedup(pre + [x]) == Step(Dedup(pre), x)
  {
    assert (pre + [x])[..|pre|] == pre;
  }

  lemma DedupFour(m: Domain, c: Domain, y: Domain, my: Domain)
    requires m.reversed != [] && c.reversed != [] && y.reversed != [] && my.reversed != []
    requires !Covers(m, c) && !Covers(c, y) && Covers(y, my)
    ensures Dedup([m, c, y, my]) == [m, c, y]
  {
    DedupKeeps([m, c, y]);
    DedupAppend([m, c, y], my);
    assert [m, c, y] + [my] == [m, c, y, my];
  }

  /** The shape of the four-entry example: three entries in ascending order,
      none covering the next, and a subdomain of the last one. */
  lemma BuildFour(y: Domain, m: Domain, my: Domain, c: Domain)
    requires y.reversed != [] && m.reversed != [] && my.reversed != [] && c.reversed != []
    requires Precedes(m, c) && Precedes(c, y) && Precedes(y, my)
    requires !Covers(m, c) && !Covers(c, y) && Covers(y, my)
    ensures Build([y, m, my, c]).domains == [m, c, y]
  {
    var t := [m, c, y, my];
    NotAfterTransitive(m, c, y);
    NotAfterTransitive(m, y, my);
    NotAfterTransitive(c, y, my);
    assert Sorted(t);
    BuildViaSorted([y, m, my, c], t);
    DedupFour(m, c, y, my);
  }

  /** Stored texts starting with different characters are ordered by those
      characters, and neither covers the other. */
  lemma FirstCharApart(a: Domain, b: Domain)
    requires a.reversed != [] && b.reversed != [] && a.reversed[0] < b.reversed[0]
    ensures Precedes(a, b) && !Covers(a, b) && !Covers(b, a)
  {
    assert Padded(a.reversed)[0] == a.reversed[0];
    assert Padded(b.reversed)[0] == b.reversed[0];
  }

  /** Padded stored texts that differ at a position both have: neither domain
      covers the other. */
  lemma PaddedDiffer(a: Domain, b: Domain, k: nat)
    requires a.reversed != [] && b.reversed != []
    requires k < |Padded(a.reversed)| && k < |Padded(b.reversed)|
    requires Padded(a.reversed)[k] != Padded(b.reversed)[k]
    ensures !Covers(a, b) && !Covers(b, a)
  {
    SubdomainPrefix(a, b);
    SubdomainPrefix(b, a);
  }

  /** A parent's stored text followed by the separator starts the child's:
      the parent sorts first and covers the child. */
  lemma ParentBefore(p: Domain, c: Domain)
    requires p.reversed != [] && p.reversed[|p.reversed| - 1] != '.'
    requires p.reversed + ['.'] <= c.reversed
    ensures Precedes(p, c) && Covers(p, c)
  {
    PrefixLessEq(p.reversed, c.reversed);
    SubdomainPrefix(p, c);
    assert Padded(p.reversed) == p.reversed + ['.'];
  }

  /** The stored texts of the four-entry example in ascending order, "em.spam"
      < "moc" < "ur.ay" < "ur.ay.m", where only "ur.ay" covers its successor. */
  lemma FourTexts()
    ensures Precedes(Domain("em.spam"), Domain("moc")) && !Covers(Domain("em.spam"), Domain("moc"))
    ensures Precedes(Domain("moc"), Domain("ur.ay")) && !Covers(Domain("moc"), Domain("ur.ay"))
    ensures Precedes(Domain("ur.ay"), Domain("ur.ay.m")) && Covers(Domain("ur.ay"), Domain("ur.ay.m"))
  {
    FirstCharApart(Domain("em.spam"), Domain("moc"));
    FirstCharApart(Domain("moc"), Domain("ur.ay"));
    assert "ur.ay" + ['.'] <= "ur.ay.m";
    ParentBefore(Domain("ur.ay"), Domain("ur.ay.m"));
  }

  /**
   The constructor on "ya.ru", "maps.me", "m.ya.ru", "com": sorted by stored
   text the list is "maps.me", "com", "ya.ru", "m.ya.ru", and the last is
   dropped as a subdomain of "ya.ru".
   */
  lemma BuildExample()
    ensures Build([FromName("ya.ru"), FromName("maps.me"), FromName("m.ya.ru"), FromName("com")]).domains
         == [FromName("maps.me"), FromName("com"), FromName("ya.ru")]
  {
    StoredAs("ya.ru", "ur.ay");
    StoredAs("maps.me", "em.spam");
    StoredAs("m.ya.ru", "ur.ay.m");
    StoredAs("com", "moc");
    FourTexts();
    BuildFour(Domain("ur.ay"), Domain("em.spam"), Domain("ur.ay.m"), Domain("moc"));
  }

  /** Two entries in ascending order, neither covering the other, are both
      kept. */
  lemma BuildTwo(a: Domain, b: Domain)
    requires a.reversed != [] && b.reversed != []
    requires Precedes(a, b) && !Covers(a, b)
    ensures Build([a, b]).domains == [a, b]
  {
    BuildViaSorted([a, b], [a, b]);
    DedupTwo(a, b);
  }

  lemma DedupTwo(a: Domain, b: Domain)
    requires a.reversed != [] && b.reversed != [] && !Covers(a, b)
    ensures Dedup([a, b]) == [a, b]
  {
    assert ApartFromPrevious([a, b], 1);
    DedupKeeps([a, b]);
  }

  /** In a two-entry list, a query sorted at or after the second entry is
      judged by the second entry alone. */
  lemma FloorIsSecond(a: Domain, b: Domain, q: Domain)
    requires a.reversed != [] && b.reversed != [] && q.reversed != []
    requires !Precedes(q, b)
    ensures Verdict([a, b], q) <==> Covers(b, q)
  {
    assert !IsFloor([a, b], q, 0);
    assert IsFloor([a, b], q, 1);
  }

  /** The stored texts "moc" and "moc-a" of the entries "com" and "a-com":
      ascending, and the first does not cover the second. */
  lemma HyphenEntries()
    ensures Precedes(Domain("moc"), Domain("moc-a")) && !Covers(Domain("moc"), Domain("moc-a"))
  {
    PrefixLessEq("moc", "moc-a");
    PaddedDiffer(Domain("moc"), Domain("moc-a"), 3);
  }

  /** The stored text "moc.y" of the query "y.com" sorts after "moc-a", which
      does not cover it, and "moc" does. */
  lemma HyphenQuery()
    ensures !Precedes(Domain("moc.y"), Domain("moc-a")) && !Covers(Domain("moc-a"), Domain("moc.y"))
    ensures Covers(Domain("moc"), Domain("moc.y"))
  {
    PaddedDiffer(Domain("moc-a"), Domain("moc.y"), 3);
    assert "moc" + ['.'] <= "moc.y";
    ParentBefore(Domain("moc"), Domain("moc.y"));
  }

  /** Three entries in ascending order, each apart from its predecessor, are
      all kept. */
  lemma KeepThree(a: Domain, b: Domain, c: Domain)
    requires a.reversed != [] && b.reversed != [] && c.reversed != []
    requires Precedes(a, b) && Precedes(b, c)
    requires !Covers(a, b) && !Covers(b, c)
    ensures Build([a, b, c]).domains == [a, b, c]
  {
    NotAfterTransitive(a, b, c);
    assert Sorted([a, b, c]);
    BuildViaSorted([a, b, c], [a, b, c]);
    assert ApartFromPrevious([a, b, c], 1);
    assert ApartFromPrevious([a, b, c], 2);
    DedupKeeps([a, b, c]);
  }

  /** The stored text "moc.x" of "x.com" sorts after "moc-a", which does not
      cover it, and "moc" covers it. */
  lemma NestedTexts()
    ensures Precedes(Domain("moc-a"), Domain("moc.x")) && !Covers(Domain("moc-a"), Domain("moc.x"))
    ensures Covers(Domain("moc"), Domain("moc.x"))
  {
    PaddedDiffer(Domain("moc-a"), Domain("moc.x"), 3);
    assert "moc" + ['.'] <= "moc.x";
    ParentBefore(Domain("moc"), Domain("moc.x"));
  }

  /**
   Entries "com", "a-com", "x.com": the constructor keeps all three, although
   "com" covers "x.com". `unique` compares "x.com" only with "a-com", the last
   entry kept, so outside well-formed names a nesting pair survives.
   */
  lemma NestedPairKept()
    ensures Build([FromName("com"), FromName("a-com"), FromName("x.com")]).domains
         == [FromName("com"), FromName("a-com"), FromName("x.com")]
    ensures Covers(FromName("com"), FromName("x.com"))
  {
    StoredAs("com", "moc");
    StoredAs("a-com", "moc-a");
    StoredAs("x.com", "moc.x");
    HyphenEntries();
    NestedTexts();
    KeepThree(Domain("moc"), Domain("moc-a"), Domain("moc.x"));
  }

  /**
   Entries "com" and "a-com" with query "y.com". The hyphen sorts below the
   separator, so "a-com" sits between "com" and "y.com" in stored order; the
   floor search looks at "a-com" only and answers "not forbidden", although
   "com" covers the query.
   */
  lemma HyphenHidesParent()
    ensures Build([FromName("com"), FromName("a-com")]).domains == [FromName("com"), FromName("a-com")]
    ensures !Verdict(Build([FromName("com"), FromName("a-com")]).domains, FromName("y.com"))
    ensures Covers(FromName("com"), FromName("y.com"))
  {
    StoredAs("com", "moc");
    StoredAs("a-com", "moc-a");
    StoredAs("y.com", "moc.y");
    HyphenEntries();
    HyphenQuery();
    BuildTwo(Domain("moc"), Domain("moc-a"));
    FloorIsSecond(Domain("moc"), Domain("moc-a"), Domain("moc.y"));
  }

  /** The stored texts "moc", "moc." and "ur" in ascending order: "moc." and
      "moc" cover each other, "ur" is apart from both. */
  lemma DotTexts()
    ensures Precedes(Domain("moc"), Domain("moc.")) && Covers(Domain("moc."), Domain("moc"))
    ensures Precedes(Domain("moc."), Domain("ur")) && !Covers(Domain("moc."), Domain("ur"))
    ensures Precedes(Domain("moc"), Domain("ur"))
  {
    PrefixLessEq("moc", "moc.");
    SubdomainPrefix(Domain("moc."), Domain("moc"));
    assert Padded("moc.") == "moc." && Padded("moc") == "moc.";
    FirstCharApart(Domain("moc."), Domain("ur"));
    FirstCharApart(Domain("moc"), Domain("ur"));
  }

  /** A single entry forbids every query it covers, also one sorted before
      it, which has no floor. */
  lemma OneEntryBefore(e: Domain, q: Domain)
    requires e.reversed != [] && q.reversed != []
    requires Precedes(q, e) && Covers(e, q)
    ensures Build([e]).domains == [e]
    ensures Verdict([e], q)
    ensures forall i :: !IsFloor([e], q, i)
  {
    BuildViaSorted([e], [e]);
  }

  /**
   A single entry ".com" forbids "com" although "com" sorts before it: only
   the one-entry branch of the lookup finds it.
   */
  lemma OneEntryBranch()
    ensures Build([FromName(".com")]).domains == [FromName(".com")]
    ensures Verdict([FromName(".com")], FromName("com"))
    ensures forall i :: !IsFloor([FromName(".com")], FromName("com"), i)
  {
    StoredAs(".com", "moc.");
    StoredAs("com", "moc");
    DotTexts();
    OneEntryBefore(Domain("moc."), Domain("moc"));
  }

  /** In a two-entry list, a query sorted before both entries has no floor,
      and the one-entry branch does not apply. */
  lemma BeforeTwo(a: Domain, b: Domain, q: Domain)
    requires a.reversed != [] && b.reversed != [] && q.reversed != []
    requires Precedes(q, a) && Precedes(q, b)
    ensures !Verdict([a, b], q)
  {
  }

  /** With a second entry "ru" the one-entry branch is skipped, and "com" is
      no longer forbidden although ".com" covers it. */
  lemma OneEntryBranchSkipped()
    ensures Build([FromName(".com"), FromName("ru")]).domains == [FromName(".com"), FromName("ru")]
    ensures !Verdict([FromName(".com"), FromName("ru")], FromName("com"))
    ensures Covers(FromName(".com"), FromName("com"))
  {
    StoredAs(".com", "moc.");
    StoredAs("ru", "ur");
    StoredAs("com", "moc");
    DotTexts();
    BuildTwo(Domain("moc."), Domain("ur"));
    BeforeTwo(Domain("moc."), Domain("ur"), Domain("moc"));
  }
}

=== FILE: text.dfy ===
/**
 Character strings as the block-list checker treats them: reversal (what
 `std::reverse` does to a `std::string`), the prefix relation (Dafny's `<=` on
 sequences) and the lexicographic order of `std::string::operator<`.

 Characters are compared by code point, which is how `std::char_traits<char>`
 orders them (as unsigned bytes).
 */
module Text {

  /** The character-wise reversal of `s`. */
  function Reverse(s: string): (r: string)
    ensures |r| == |s|
    ensures forall i :: 0 <= i < |s| ==> r[i] == s[|s| - 1 - i]
  {
    seq(|s|, i requires 0 <= i < |s| => s[|s| - 1 - i])
  }

  /** Reversing twice gives back the original string. */
  lemma ReverseInvolution(s: string)
    ensures Reverse(Reverse(s)) == s
  {
    var r := Reverse(Reverse(s));
    assert forall i :: 0 <= i < |s| ==> r[i] == s[i];
  }

  /** Reversal is one-to-one. */
  lemma ReverseInjective(a: string, b: string)
    ensures Reverse(a) == Reverse(b) <==> a == b
  {
    if Reverse(a) == Reverse(b) {
      ReverseInvolution(a);
      ReverseInvolution(b);
    }
  }

  /** Reversal turns a concatenation around. */
  lemma ReverseAppend(a: string, b: string)
    ensures Reverse(a + b) == Reverse(b) + Reverse(a)
  {
    var l, r := Reverse(a + b), Reverse(b) + Reverse(a);
    assert forall i :: 0 <= i < |l| ==> l[i] == r[i];
  }

  /** `p` is a suffix of `s`. */
  predicate IsSuffix(p: string, s: string) {
    |p| <= |s| && s[|s| - |p|..] == p
  }

  /** A prefix of a reversed string is the reversal of a suffix of the string. */
  lemma ReversePrefixSuffix(p: string, s: string)
    ensures Reverse(p) <= Reverse(s) <==> IsSuffix(p, s)
  {
    var rp, rs := Reverse(p), Reverse(s);
    if rp <= rs {
      var t := s[|s| - |p|..];
      assert forall i :: 0 <= i < |p| ==> t[i] == p[i] by {
        forall i | 0 <= i < |p|
          ensures t[i] == p[i]
        {
          assert rs[|p| - 1 - i] == rp[|p| - 1 - i];
        }
      }
    }
    if IsSuffix(p, s) {
      assert forall i :: 0 <= i < |p| ==> rs[i] == rp[i] by {
        forall i | 0 <= i < |p|
          ensures rs[i] == rp[i]
        {
          assert s[|s| - |p|..][|p| - 1 - i] == p[|p| - 1 - i];
        }
      }
    }
  }

  /** `p` starts `s`, compared one character at a time from the front. */
  predicate StartsWith(p: string, s: string) {
    if p == [] then true
    else s != [] && p[0] == s[0] && StartsWith(p[1..], s[1..])
  }

  /** `StartsWith` is the prefix relation. */
  lemma {:induction false} StartsWithPrefix(p: string, s: string)
    ensures StartsWith(p, s) <==> p <= s
  {
    if p != [] && s != [] && p[0] == s[0] {
      StartsWithPrefix(p[1..], s[1..]);
      assert p == [p[0]] + p[1..] && s == [s[0]] + s[1..];
    }
  }

  /** Lexicographic order on strings, as `std::string::operator<` computes it:
      the first differing character decides, and a proper prefix comes first. */
  predicate Less(a: string, b: string) {
    if a == [] then b != []
    else if b == [] then false
    else if a[0] != b[0] then a[0] < b[0]
    else Less(a[1..], b[1..])
  }

  predicate LessEq(a: string, b: string) {
    a == b || Less(a, b)
  }

  lemma {:induction false} LessIrreflexive(a: string)
    ensures !Less(a, a)
  {
    if a != [] {
      LessIrreflexive(a[1..]);
    }
  }

  lemma {:induction false} LessAsymmetric(a: string, b: string)
    ensures Less(a, b) ==> !Less(b, a)
  {
    if a != [] && b != [] && a[0] == b[0] {
      LessAsymmetric(a[1..], b[1..]);
    }
  }

  lemma {:induction false} LessTransitive(a: string, b: string, c: string)
    requires Less(a, b) && Less(b, c)
    ensures Less(a, c)
  {
    if a != [] && a[0] == b[0] && b[0] == c[0] {
      LessTransitive(a[1..], b[1..], c[1..]);
    }
  }

  /** Any two strings are equal or ordered one way round. */
  lemma {:induction false} LessTotal(a: string, b: string)
    ensures a == b || Less(a, b) || Less(b, a)
  {
    if a != [] && b != [] && a[0] == b[0] {
      LessTotal(a[1..], b[1..]);
      if a[1..] == b[1..] {
        assert a == [a[0]] + a[1..] && b == [b[0]] + b[1..];
      }
    }
  }

  lemma LessEqTransitive(a: string, b: string, c: string)
    requires LessEq(a, b) && LessEq(b, c)
    ensures LessEq(a, c)
  {
    if Less(a, b) && Less(b, c) {
      LessTransitive(a, b, c);
    }
  }

  /** A prefix never comes after the string it starts. */
  lemma {:induction false} PrefixLessEq(a: string, b: string)
    requires a <= b
    ensures LessEq(a, b)
    ensures |a| < |b| ==> Less(a, b)
  {
    if a != [] {
      PrefixLessEq(a[1..], b[1..]);
    }
  }

  /**
   The key fact behind the floor search. When `r + "."` starts `q` and every
   character of `x` sorts no lower than `.`, a string `x` lying between `r`
   and `q` is `r` itself or also starts with `r + "."`.
   */
  lemma {:induction false} Between(r: string, x: string, q: string)
    requires r + ['.'] <= q
    requires LessEq(r, x) && LessEq(x, q)
    requires forall k :: 0 <= k < |x| ==> '.' <= x[k]
    ensures x == r || r + ['.'] <= x
  {
    if r == [] {
      if x != [] {
        assert q[0] == '.';
        assert x[0] == '.';
        assert ['.'] <= x;
      }
    } else if x != r {
      assert q[0] == r[0];
      assert x != [];
      assert x[0] == r[0];
      assert (r + ['.'])[1..] == r[1..] + ['.'];
      Between(r[1..], x[1..], q[1..]);
    }
  }
}
